=== FILE: README.md ===
# Note list consistency in the ReSift notes demo

This project models the application logic of a small note-taking web app
written on top of the ReSift data-fetching library. The app keeps a cached
list of notes (`getNoteList`, namespace `noteList`). Four other fetches
change or read single notes: `createNoteItem` (namespace `newNoteItem`) and
`makeGetNoteItem`, `makeUpdateNoteItem` and `makeDeleteNoteItem` (namespace
`noteItem`). The list stays in step with them through two merge rules the
list fetch registers.

The model covers:

- the two merge rules (`NoteListMerge`);
- the mock HTTP server as a pure transition on a sequence of notes (`MockApi`),
  with route matching (`Http`);
- the five fetch factories (`Fetches`): each one's namespace, identity,
  request descriptor and result, including the tombstone
  `{ id, deleted: true }` a delete resolves with;
- the payloads the components build (`NoteItemView`, `NewNoteDialog`);
- the list entry title `getTitle` with its "Untitled Note" fallback
  (`NoteListView`).

The headline result is `Consistency.SessionKeepsCoherent`. Take a cached list
that is either not yet fetched or equal to the server store. It stays that
way through any session of well-formed calls, whether each call succeeds or
fails. Ids need not be distinct. What the library does with a successful
result is not visible in this repository. The one behaviour relied on is the
one the app documents about itself (src/mockApi.js:181-187): a namespace's
merge rule runs when a related namespace receives a result. This assumption
is the definition `Consistency.ListCacheAfter`.

The theorem needs these facts about the calls and the store; the first three
are `Consistency.WellFormedCall`:

- A get, update or delete is bound to an id that fills one path segment.
  The `:id` page route (src/App.js:77-79) guarantees this.
- An update's body must carry the route id. `NoteItemView` guarantees this
  because it copies the note on screen.
- Neither an update's nor a create's body carries the deleted flag.
- No stored note may carry the deleted flag, as none of the seed notes does.

`MismatchedUpdateBreaksCoherence` and `FlaggedStoredNoteBreaksCoherence`
show, each on a concrete input, that the theorem fails without the second
and the fourth fact.

Modules follow the source files: `Notes` (the entity and the `findIndex`,
`find`, `filter` and splice operations), `NoteListMerge`
(src/fetches/getNoteList.js), `Http` and `MockApi` (src/mockApi.js), `Fetches`
(src/fetches/), `NoteItemView` (src/NoteItem.js), `NewNoteDialog`
(src/NewNoteDialog.js), `NoteListView` (src/NoteList.js), and `Consistency`
(how the pieces compose). `Wrappers` holds `Option` for `null`/`undefined`
and `Result` for a resolved or rejected promise.

Inputs that the source gets from the outside world are parameters:

- `freshId` is the id `shortId()` would generate.
- `now` is `moment().toISOString()`.
- `loading` is `isLoading(status)` of the create fetch.

## Model

| member | source | states |
|---|---|---|
| Notes.FindIndex | src/fetches/getNoteList.js:11-13 | `findIndex` by id: absent exactly when no note has the id; otherwise an in-range index holding the id with no earlier note holding it |
| Notes.Find | src/mockApi.js:290 | `find` by id: absent exactly when no note has the id; otherwise a note of the list with that id, the one at the first matching index |
| Notes.Without | src/fetches/getNoteList.js:20 | `filter(note => note.id !== id)`: no survivor has the id, a note survives exactly when it was in the list with another id, the list is unchanged when the id is absent and strictly shorter when present |
| Notes.WithoutConcat | src/fetches/getNoteList.js:20 | the filter keeps survivors in their original order: filtering a concatenation concatenates the filtered parts |
| Notes.ReplaceAt | src/fetches/getNoteList.js:23-27 | the slice-and-splice keeps the length, puts the new note at the index and leaves every other position as it was |
| NoteListMerge.MergeNoteItem | src/fetches/getNoteList.js:8-28 | an absent list stays absent; a list without the incoming id is returned unchanged even for a tombstone; a tombstone removes every note with its id and keeps every other note; otherwise exactly the first match is replaced, with the length and all other positions unchanged |
| NoteListMerge.MergeNewNoteItem | src/fetches/getNoteList.js:29-33 | absent stays absent; otherwise the note is appended with no duplicate check: length grows by one, the prefix is the old list; an empty list becomes the one-note list |
| NoteListMerge.MergeNoteItemIdempotent | src/fetches/getNoteList.js:8-28 | applying the `noteItem` rule twice with the same note equals applying it once |
| NoteListMerge.MergeTombstoneKeepsOrder | src/fetches/getNoteList.js:19-21 | a tombstone merge on a concatenated list filters each part and keeps their order |
| Http.MatchRoute | src/mockApi.js:256-287 | the list handler serves exactly `/notes`; the single-note handler serves `/notes/<id>` with that id bound exactly when the id is one path segment |
| Http.ParseMethod | src/mockApi.js:261-269 | the handlers' case-sensitive method comparisons: each of `GET`, `POST`, `PUT`, `DELETE` maps to its own method and any other name is kept as an unhandled method; a request carries only such a method, so an unhandled method never holds one of the four names |
| MockApi.HandleNotes | src/mockApi.js:256-278 | GET returns the whole store and leaves it unchanged; POST appends exactly one note carrying the generated id (overriding any id in the body) and every other body field, keeps the earlier entries and returns the stored note; any other method returns `undefined` with the store unchanged |
| MockApi.HandleNote | src/mockApi.js:281-312 | GET, PUT and DELETE of an absent id fail with Not Found and leave the store unchanged; GET returns the first note with the id; PUT stores the body verbatim at the first match (its id is not forced to the route id), keeps the length and other positions and returns the body; DELETE removes every note with the id, shortens the store and returns `undefined`; other methods return `undefined` with the store unchanged |
| MockApi.Handle | src/mockApi.js:256-312 | `/notes` is served by the list handler and `/notes/<id>` by the single-note handler with that id; an unrouted request fails; a failed request and any GET or unhandled method leave the store unchanged |
| MockApi.UpdateThenGet | src/mockApi.js:289-302 | after a PUT whose body keeps the route id, a GET of that id returns the body |
| Fetches.NoteListRequest | src/fetches/getNoteList.js:36-42 | GET on the list route, no body |
| Fetches.CreateNoteRequest | src/fetches/createNoteItem.js:6-13 | POST on the list route, whatever the note; the body is the call argument unchanged |
| Fetches.GetNoteRequest | src/fetches/makeGetNoteItem.js:6-12 | GET on `"/notes/" + noteId` with no body, reaching the single-note handler with the same id for a one-segment id |
| Fetches.UpdateNoteRequest | src/fetches/makeUpdateNoteItem.js:6-13 | PUT on `"/notes/" + noteId` with the call argument as body, unchanged; route id and body id are independent |
| Fetches.DeleteNoteRequest | src/fetches/makeDeleteNoteItem.js:6-12 | DELETE on `"/notes/" + noteId` with no body |
| Fetches.Request | src/fetches/getNoteList.js:36-42 | each fetch sends the method its factory names (`GET` here, `POST` in createNoteItem.js:9, `GET`/`PUT`/`DELETE` in the three note factories), which the handlers' comparisons read as that method and never as an unhandled one |
| Fetches.Settle | src/fetches/makeDeleteNoteItem.js:7-16 | a failure propagates unchanged; non-delete fetches resolve with the server response unchanged; a successful delete resolves with exactly `{ id: noteId, deleted: true }` for the bound id |
| Fetches.DeleteIgnoresCallArgument | src/fetches/makeDeleteNoteItem.js:6-15 | the delete request and its tombstone do not depend on the call argument `updatedNote`, nor on what the server returned |
| Fetches.SingletonIdentities | src/fetches/createNoteItem.js:3-16 | the list and create fetches have no bind arguments and live in `noteList` and `newNoteItem`; creates do not publish under `noteItem` |
| Fetches.NoteItemIdentities | src/fetches/makeDeleteNoteItem.js:3-6 | get, update and delete fetches publish under `noteItem` keyed by the bound id; two of them share a cache entry exactly when their ids agree |
| NoteListView.Trim | src/NoteList.js:21 | `trim()`: a contiguous piece of the input whose cut-off ends are whitespace and whose own ends are not; empty exactly when the input is all whitespace |
| NoteListView.FirstLine | src/NoteList.js:21 | `split("\n")[0]`: a prefix with no line feed, followed in the input by a line feed when shorter, the whole input when it has none |
| NoteListView.GetTitle | src/NoteList.js:20-22 | the title is the whole first line of the trimmed content: a prefix with no line feed, followed in the trimmed content by a line feed when shorter, all of it when that has no line feed; it does not start with whitespace, and is empty exactly when the content is missing or all whitespace |
| NoteListView.DisplayTitle | src/NoteList.js:118 | "Untitled Note" when the title is empty, otherwise the title; never empty |
| NoteItemView.ItemFetches | src/NoteItem.js:100-102 | the get, update and delete fetches of a note item are bound to the same id and share one cache identity |
| NoteItemView.SavePayload | src/NoteItem.js:112-121 | nothing is saved when the content did not change; otherwise the payload keeps the current note's id and other fields, with the new content and the new `updatedAt` |
| NoteItemView.SaveRequest | src/NoteItem.js:112-121 | a save is a PUT on the bound id's route whose body keeps the id of the note on screen |
| NoteItemView.SaveThenReload | src/NoteItem.js:112-121 | saving the note the get fetch read is read back by the next get: same id, new content, new timestamp |
| NewNoteDialog.Mount | src/NewNoteDialog.js:24 | the dialog starts with an empty name, open or not |
| NewNoteDialog.Step | src/NewNoteDialog.js:32-36 | closing resets the name to ""; opening keeps the name; typing changes the name only while open; a closed dialog never holds a name |
| NewNoteDialog.RunKeepsClosedBlank | src/NewNoteDialog.js:32-36 | after any sequence of events a closed dialog holds no name |
| NewNoteDialog.ReopenedDialogIsBlank | src/NewNoteDialog.js:24-36 | after any sequence of events since the mount, opening a closed dialog shows an empty name |
| NewNoteDialog.CreateEnabled | src/NewNoteDialog.js:59 | Create is enabled exactly when the name is non-empty and the create fetch is not loading |
| NewNoteDialog.ClosedDialogCannotCreate | src/NewNoteDialog.js:59 | a closed dialog can never create, its name being empty |
| NewNoteDialog.CreatePayload | src/NewNoteDialog.js:28 | the payload is `"# " + name` as content, with no id, no `updatedAt` and no deleted flag |
| NewNoteDialog.CreateRequest | src/NewNoteDialog.js:27-29 | the create is a POST on the list route carrying the payload |
| NewNoteDialog.CreatedNoteHasTitle | src/NewNoteDialog.js:28 | a note created from the dialog is never listed as "Untitled Note": its title starts with `#` |
| Consistency.ListCacheAfter | src/mockApi.js:181-187 | the assumption about the library: a list result replaces the cached list; a single-note result leaves an unfetched list unfetched, a create appends its note to a fetched list, and a `noteItem` result never lengthens it and leaves it alone when its id is absent |
| Consistency.Dispatch | src/fetches/getNoteList.js:8-33 | the server transition, the settling of src/fetches/makeDeleteNoteItem.js:9-15 and the merge rules together: the store becomes the server's next store for the fetch's request and the result is that response as the fetch settles it; a successful result has the shape its namespace expects and the list goes through `ListCacheAfter`; a failed call changes neither the store nor the list and merges nothing; a list that was never fetched stays unfetched until the list fetch runs; the list fetch always succeeds and caches the store; a successful delete publishes its tombstone |
| Consistency.DispatchKeepsCoherent | src/fetches/getNoteList.js:8-33 | a list that is unfetched or equal to the store stays so after any well-formed call; a tombstone-free store stays tombstone-free |
| Consistency.CreateKeepsCoherent | src/fetches/getNoteList.js:29-33 | a create always succeeds with the note `{...body, id: freshId}`, which POST appends to the store and the append rule appends to a fetched list; coherence survives |
| Consistency.GetKeepsCoherent | src/fetches/getNoteList.js:23-27 | a get leaves the store and the cached list unchanged (the note read goes back at its own position); for a one-segment id it succeeds exactly when the id is stored, with the first note carrying it; coherence survives |
| Consistency.UpdateKeepsCoherent | src/fetches/getNoteList.js:11-27 | for a one-segment id (required) and a body carrying it, the update succeeds exactly when the id is stored, PUT replaces the first match and a fetched list becomes the new store; coherence survives |
| Consistency.DeleteKeepsCoherent | src/fetches/getNoteList.js:19-21 | for a one-segment id (required), the delete succeeds exactly when the id is stored, DELETE filters every match from the store and the tombstone leaves a fetched list equal to it; coherence survives |
| Consistency.SessionKeepsCoherent | src/fetches/getNoteList.js:5-34 | coherence between list and store holds after any session of well-formed calls |
| Consistency.SaveIsWellFormed | src/NoteItem.js:112-121 | the save payload built from a note the server holds, for a one-segment id, is a well-formed update |
| Consistency.CreateIsWellFormed | src/NewNoteDialog.js:27-29 | the dialog's create is a well-formed call |
| Consistency.CreateEditDeleteScenario | src/mockApi.js:256-312 | list `[a]`; create "B" with id "b" gives `[a, b]`; editing "a" gives `[a2, b]`; deleting "a" gives `[b]`; reading "a" then fails with Not Found, and the cached list follows each step |
| Consistency.MismatchedUpdateBreaksCoherence | src/fetches/makeUpdateNoteItem.js:6-11 | a PUT to "a" whose body says "b" succeeds but leaves the list out of step with the store, so the id agreement is needed |
| Consistency.FlaggedStoredNoteBreaksCoherence | src/fetches/getNoteList.js:19-21 | reading back a stored note with the deleted flag drops it from the list, so a tombstone-free store is needed |

## Left out

- The ReSift library: `defineFetch`, dispatch, de-duplication, the store,
  the status lifecycle (`isLoading`, `isNormal`), `Guard` and the hooks are
  not part of this repository. Only the merge-on-success behaviour is assumed
  (`Consistency.ListCacheAfter`), and only for the one cached list. The
  per-id cache of the `noteItem` namespace is not modelled.
- Status-driven UI: spinners, sync indicators, the update flash, navigation
  after an error or a delete, and all rendering, styling, routing and
  bootstrapping (src/App.js, src/AppBar.js, src/index.js).
- Overlapping dispatches. The `delay` in the mock server (src/mockApi.js:259,
  284) lets several dispatches be in flight at once. The model runs each call
  as one atomic step: the server transition and the merge of its result happen
  together, in the order the server handles the calls. The coherence theorems
  hold under that assumption only. Overlapping dispatches of one fetch
  identity, and whatever de-duplication or cancellation the library applies
  to them, are not modelled. The `delay` after a save (src/NoteItem.js:124)
  only times the update flash.
- `shortId()`, `moment()` and `calendar()`: the generated id and the clock
  reading are parameters, timestamps are opaque strings, date display is not
  modelled.
- The seed notes of the mock server (src/mockApi.js:9-254): every theorem
  holds for any initial store in which no note carries the deleted flag, as
  the seed notes do.
- `null` and `undefined` are one value (`None`), although `===` in
  src/fetches/getNoteList.js:12 tells them apart; strings are sequences of
  Unicode scalar values, so lone UTF-16 surrogates cannot be represented.
  Neither case arises from the app's calls, and neither changes `trim` or
  `split("\n")` on well-formed strings.
- Notes carry only `id`, `content`, `updatedAt` and `deleted`. Other fields a
  JavaScript object could hold are not modelled. `deleted` stands for the
  flag's truthiness.
- Http.MatchRoute: route matching is done by the library's path matcher. The
  model matches `/notes` exactly and `/notes/<one segment>`; any other route
  is a failure. The source mounts `/notes/:id` without the `exact` flag it
  gives `/notes` (src/mockApi.js:257 vs 282), so the library may also serve a
  longer route such as `/notes/a/b` with id `a`. That is not modelled, and
  neither are trailing slashes or percent decoding. With such a route the
  source could delete or overwrite note `a` while the merge looks for
  `a/b`, so the list and the store would drift. The coherence theorems
  therefore assume, through `Consistency.WellFormedCall`, that every
  single-note fetch is bound to a one-segment id, as the `:id` page route
  provides; `Consistency.UpdateKeepsCoherent` and
  `Consistency.DeleteKeepsCoherent` require it directly.
- MockApi.HandleNote: in the source, a PUT without a body to an existing id
  stores `undefined` in the note array. A sequence of notes cannot hold
  that, so the model requires a body for that one case.
- A merge applied to a value of the wrong shape (for example an `undefined`
  note) throws in JavaScript. Every successful response of this server has
  the right shape (`Consistency.SettledShape`), so `ListCacheAfter` requires
  it.
- NewNoteDialog.Step: the name field is inside the dialog and exists only
  while the dialog is open. Typing into a closed dialog is therefore a
  no-op.

=== FILE: consistency.dfy ===
/** How the cached note list follows the server. A dispatch sends a fetch's
    request to the mock server and, on success, publishes the fetch's result.
    What the caching library does with a published result is not part of this
    model; the one behaviour relied on is the one the app documents for itself
    (src/mockApi.js:181-187): the result is stored under the fetch's own
    namespace, and a namespace that registered a merge rule for the fetch's
    namespace has that rule applied to its cached value. `ListCacheAfter`
    states that assumption for the single cached list (the list fetch is a
    singleton, so there is exactly one list entry). */
module Consistency {
  import opened Wrappers
  import opened Notes
  import opened NoteListMerge
  import opened Http
  import opened MockApi
  import opened Fetches
  import NoteItemView
  import NewNoteDialog

  /** The list entry after a success published under `ns` (the assumption
      above): the list fetch replaces it, `noteItem` and `newNoteItem`
      results go through the merge rules the list registered. */
  function ListCacheAfter(ns: Namespace, value: Body, cached: Option<seq<Note>>): (r: Option<seq<Note>>)
    requires ns == NoteListNs ==> value.NoteListBody?
    requires ns != NoteListNs ==> value.NoteBody?
    ensures ns == NoteListNs ==> r == Some(value.notes)
    ensures ns != NoteListNs ==> (r.None? <==> cached.None?)
    ensures ns == NewNoteItemNs && cached.Some? ==> r.value == cached.value + [value.note]
    ensures ns == NoteItemNs && cached.Some? ==>
      |r.value| <= |cached.value| && (!HasId(cached.value, value.note.id) ==> r == cached)
  {
    match ns
    case NoteListNs => Some(value.notes)
    case NoteItemNs => MergeNoteItem(cached, value.note)
    case NewNoteItemNs => MergeNewNoteItem(cached, value.note)
  }

  /** A successful dispatch resolves with the shape its namespace's consumers
      expect: a list for the list fetch, one note for every other fetch. */
  lemma SettledShape(store: seq<Note>, f: Fetch, callArg: Option<Note>, freshId: NoteId)
    requires Serviceable(store, Request(f, callArg))
    requires Settle(f, Handle(store, Request(f, callArg), freshId).1).Success?
    ensures var value := Settle(f, Handle(store, Request(f, callArg), freshId).1).value;
      (NamespaceOf(f) == NoteListNs ==> value.NoteListBody?) &&
      (NamespaceOf(f) != NoteListNs ==> value.NoteBody?)
  {
    if BindArgs(f) != [] {
      NoteRouteMatchesOnlyItsId(f.noteId);
    }
  }

  /** `"/notes/" + id` is never the list route and names no other id. */
  lemma NoteRouteMatchesOnlyItsId(id: NoteId)
    ensures MatchRoute(NoteRoute(id)).None? || MatchRoute(NoteRoute(id)) == Some(NoteEndpoint(id))
  {
    if MatchRoute(NoteRoute(id)).Some? {
      assert NoteRoute(id) != NotesRoute by {
        assert |NoteRoute(id)| >= 7;
      }
      var other := MatchRoute(NoteRoute(id)).value.id;
      assert NoteRoute(other)[|NotePrefix|..] == other;
      assert NoteRoute(id)[|NotePrefix|..] == id;
    }
  }

  /** What one dispatch leaves behind: the server store, the cached list, and
      the fetch's result. */
  datatype Outcome = Outcome(store: seq<Note>, listCache: Option<seq<Note>>, result: Response)

  /** Dispatch `f` with `callArg` against the mock server; on success the
      result is published, on failure nothing is merged. */
  function Dispatch(store: seq<Note>, listCache: Option<seq<Note>>, f: Fetch, callArg: Option<Note>,
                    freshId: NoteId): (o: Outcome)
    requires Serviceable(store, Request(f, callArg))
    ensures o.store == Handle(store, Request(f, callArg), freshId).0
    ensures o.result == Settle(f, Handle(store, Request(f, callArg), freshId).1)
    ensures o.result.Success? ==>
      (NamespaceOf(f) == NoteListNs ==> o.result.value.NoteListBody?) &&
      (NamespaceOf(f) != NoteListNs ==> o.result.value.NoteBody?)
    ensures o.result.Success? ==>
      o.listCache == ListCacheAfter(NamespaceOf(f), o.result.value, listCache)
    ensures o.result.Failure? ==> o.store == store && o.listCache == listCache
    ensures listCache.None? && !f.GetNoteList? ==> o.listCache.None?
    ensures f.GetNoteList? ==> o.result.Success? && o.listCache == Some(store) && o.store == store
    ensures f.DeleteNoteItem? && o.result.Success? ==>
      o.result.value == NoteBody(Tombstone(f.noteId))
  {
    var (next, response) := Handle(store, Request(f, callArg), freshId);
    var result := Settle(f, response);
    match result
    case Failure(_) => Outcome(next, listCache, result)
    case Success(value) =>
      SettledShape(store, f, callArg, freshId);
      Outcome(next, ListCacheAfter(NamespaceOf(f), value, listCache), result)
  }

  /** The cached list has not been fetched yet, or it equals the server store. */
  predicate Coherent(listCache: Option<seq<Note>>, store: seq<Note>) {
    listCache.None? || listCache.value == store
  }

  /** What the client's calls respect: a single-note fetch is bound to an id
      that fills one path segment (the id comes from the `:id` segment of the
      page route, src/App.js:77-79), an update sends a note carrying the route
      id, and neither an update nor a create sends a tombstone. */
  predicate WellFormedCall(f: Fetch, callArg: Option<Note>) {
    match f
    case GetNoteItem(id) => IsSegment(id)
    case DeleteNoteItem(id) => IsSegment(id)
    case UpdateNoteItem(id) =>
      IsSegment(id) && callArg.Some? && callArg.value.id == Some(id) && !callArg.value.deleted
    case CreateNoteItem => callArg.Some? ==> !callArg.value.deleted
    case GetNoteList => true
  }

  lemma WellFormedIsServiceable(store: seq<Note>, f: Fetch, callArg: Option<Note>)
    requires WellFormedCall(f, callArg)
    ensures Serviceable(store, Request(f, callArg))
  {
  }

  /** The consistency theorem for one dispatch: a list cache that agrees with
      the server still agrees after any well-formed call, whether it succeeds
      or fails. An update replaces the first match on both sides, a delete
      filters every match on both sides, a create appends on both sides, a
      get re-inserts the note it read. Ids need not be distinct. */
  lemma DispatchKeepsCoherent(store: seq<Note>, listCache: Option<seq<Note>>, f: Fetch,
                              callArg: Option<Note>, freshId: NoteId)
    requires Coherent(listCache, store) && NoTombstones(store)
    requires WellFormedCall(f, callArg)
    ensures Serviceable(store, Request(f, callArg))
    ensures var o := Dispatch(store, listCache, f, callArg, freshId);
      Coherent(o.listCache, o.store) && NoTombstones(o.store)
  {
    match f
    case GetNoteList =>
    case CreateNoteItem => CreateKeepsCoherent(store, listCache, callArg, freshId);
    case GetNoteItem(id) => GetKeepsCoherent(store, listCache, id, callArg, freshId);
    case UpdateNoteItem(id) => UpdateKeepsCoherent(store, listCache, id, callArg.value, freshId);
    case DeleteNoteItem(id) => DeleteKeepsCoherent(store, listCache, id, callArg, freshId);
  }

  /** A create appends the same note to the store and to a fetched list. */
  lemma CreateKeepsCoherent(store: seq<Note>, listCache: Option<seq<Note>>, callArg: Option<Note>,
                            freshId: NoteId)
    requires Coherent(listCache, store) && NoTombstones(store)
    requires callArg.Some? ==> !callArg.value.deleted
    ensures var o := Dispatch(store, listCache, CreateNoteItem, callArg, freshId);
      Coherent(o.listCache, o.store) && NoTombstones(o.store)
    ensures var o := Dispatch(store, listCache, CreateNoteItem, callArg, freshId);
      var created := WithId(callArg.GetOr(Blank), freshId);
      o.result == Success(NoteBody(created)) && o.store == store + [created] &&
      (listCache.Some? ==> o.listCache == Some(listCache.value + [created]))
  {
    var created := WithId(callArg.GetOr(Blank), freshId);
    var o := Dispatch(store, listCache, CreateNoteItem, callArg, freshId);
    assert o.store == store + [created];
    assert o.result == Success(NoteBody(created));
  }

  /** A get of a stored note re-inserts that very note at its own position. */
  lemma GetKeepsCoherent(store: seq<Note>, listCache: Option<seq<Note>>, id: NoteId,
                         callArg: Option<Note>, freshId: NoteId)
    requires Coherent(listCache, store) && NoTombstones(store)
    ensures var o := Dispatch(store, listCache, GetNoteItem(id), callArg, freshId);
      Coherent(o.listCache, o.store) && NoTombstones(o.store)
    ensures var o := Dispatch(store, listCache, GetNoteItem(id), callArg, freshId);
      o.store == store && o.listCache == listCache &&
      (IsSegment(id) ==>
        (o.result.Success? <==> HasId(store, Some(id))) &&
        (o.result.Success? ==> o.result.value == NoteBody(Find(store, Some(id)).value)))
  {
    NoteRouteMatchesOnlyItsId(id);
    var o := Dispatch(store, listCache, GetNoteItem(id), callArg, freshId);
    assert o.store == store;
    if o.result.Success? && listCache.Some? {
      var i := FindIndex(store, Some(id)).value;
      assert o.result.value.note == store[i];
      assert ReplaceAt(store, i, store[i]) == store;
    }
  }

  /** An update carrying the route id replaces the same first match on both
      sides. */
  lemma UpdateKeepsCoherent(store: seq<Note>, listCache: Option<seq<Note>>, id: NoteId,
                            body: Note, freshId: NoteId)
    requires Coherent(listCache, store) && NoTombstones(store)
    requires IsSegment(id) && body.id == Some(id) && !body.deleted
    ensures var o := Dispatch(store, listCache, UpdateNoteItem(id), Some(body), freshId);
      Coherent(o.listCache, o.store) && NoTombstones(o.store)
    ensures var o := Dispatch(store, listCache, UpdateNoteItem(id), Some(body), freshId);
      (o.result.Success? <==> HasId(store, Some(id))) &&
      (o.result.Success? ==>
        o.store == ReplaceAt(store, FindIndex(store, Some(id)).value, body) &&
        (listCache.Some? ==> o.listCache == Some(o.store)))
  {
    NoteRouteMatchesOnlyItsId(id);
    var o := Dispatch(store, listCache, UpdateNoteItem(id), Some(body), freshId);
    if o.result.Success? {
      var i := FindIndex(store, Some(id)).value;
      assert o.store == ReplaceAt(store, i, body);
    }
  }

  /** A delete filters every match on the server, and its tombstone filters
      every match in a fetched list. */
  lemma DeleteKeepsCoherent(store: seq<Note>, listCache: Option<seq<Note>>, id: NoteId,
                            callArg: Option<Note>, freshId: NoteId)
    requires Coherent(listCache, store) && NoTombstones(store)
    requires IsSegment(id)
    ensures var o := Dispatch(store, listCache, DeleteNoteItem(id), callArg, freshId);
      Coherent(o.listCache, o.store) && NoTombstones(o.store)
    ensures var o := Dispatch(store, listCache, DeleteNoteItem(id), callArg, freshId);
      (o.result.Success? <==> HasId(store, Some(id))) &&
      (o.result.Success? ==>
        o.store == Without(store, Some(id)) &&
        (listCache.Some? ==> o.listCache == Some(o.store)))
  {
    NoteRouteMatchesOnlyItsId(id);
    var req := Request(DeleteNoteItem(id), callArg);
    var (next, response) := Handle(store, req, freshId);
    var o := Dispatch(store, listCache, DeleteNoteItem(id), callArg, freshId);
    assert o.store == next;
    if MatchRoute(req.route).Some? {
      assert (next, response) == HandleNote(store, Delete, id, None);
    }
    if o.result.Success? {
      assert o.store == Without(store, Some(id));
      assert o.result.value == NoteBody(Tombstone(id));
    }
  }

  /** One call of a client session: the fetch, its call argument, and the id
      the server's generator hands out if the call creates a note. */
  datatype Call = Call(fetch: Fetch, arg: Option<Note>, freshId: NoteId)

  predicate WellFormedCalls(calls: seq<Call>) {
    forall i :: 0 <= i < |calls| ==> WellFormedCall(calls[i].fetch, calls[i].arg)
  }

  /** The server store and cached list after a session of calls. */
  function RunCalls(store: seq<Note>, listCache: Option<seq<Note>>, calls: seq<Call>)
    : (r: (seq<Note>, Option<seq<Note>>))
    requires WellFormedCalls(calls)
    decreases |calls|
  {
    if |calls| == 0 then (store, listCache)
    else
      var c := calls[0];
      WellFormedIsServiceable(store, c.fetch, c.arg);
      var o := Dispatch(store, listCache, c.fetch, c.arg, c.freshId);
      RunCalls(o.store, o.listCache, calls[1..])
  }

  /** The consistency theorem for a whole session. */
  lemma {:induction false} SessionKeepsCoherent(store: seq<Note>, listCache: Option<seq<Note>>,
                                                calls: seq<Call>)
    requires Coherent(listCache, store) && NoTombstones(store)
    requires WellFormedCalls(calls)
    ensures var (finalStore, finalCache) := RunCalls(store, listCache, calls);
      Coherent(finalCache, finalStore) && NoTombstones(finalStore)
    decreases |calls|
  {
    if |calls| > 0 {
      var c := calls[0];
      DispatchKeepsCoherent(store, listCache, c.fetch, c.arg, c.freshId);
      var o := Dispatch(store, listCache, c.fetch, c.arg, c.freshId);
      assert WellFormedCalls(calls[1..]) by {
        forall i | 0 <= i < |calls| - 1
          ensures WellFormedCall(calls[1..][i].fetch, calls[1..][i].arg)
        {
          assert calls[1..][i] == calls[i + 1];
        }
      }
      SessionKeepsCoherent(o.store, o.listCache, calls[1..]);
    }
  }

  /** The note on screen is what the get fetch read from a tombstone-free
      store, so the save `handleSave` dispatches is a well-formed update. */
  lemma SaveIsWellFormed(store: seq<Note>, id: NoteId, content: string, now: string)
    requires NoTombstones(store) && HasId(store, Some(id)) && IsSegment(id)
    ensures var data := Find(store, Some(id)).value;
      var payload := NoteItemView.SavePayload(data, content, now);
      payload.Some? ==> WellFormedCall(UpdateNoteItem(id), payload)
  {
    var i := FindIndex(store, Some(id)).value;
    assert !store[i].deleted;
  }

  /** The create the dialog dispatches is well formed. */
  lemma CreateIsWellFormed(d: NewNoteDialog.Dialog)
    ensures WellFormedCall(CreateNoteItem, NewNoteDialog.CreateRequest(d).data)
  {
  }

  /** The notes of the walk-through below. */
  const NoteA: Note := Note(Some("a"), Some("# A"), Some("t0"), false)
  const NoteB: Note := Note(Some("b"), Some("# B"), None, false)
  const NoteA2: Note := Note(Some("a"), Some("# A2"), Some("t1"), false)

  /** The walk-through of the app: a list holding note "a"; create "B" (the
      server hands out id "b"), edit "a", delete "a", then reading "a" fails
      with Not Found. The cached list follows every step. */
  lemma CreateEditDeleteScenario()
    ensures
      var created := Dispatch([NoteA], Some([NoteA]), CreateNoteItem,
                              Some(NewNoteDialog.CreatePayload("B")), "b");
      var edited := Dispatch(created.store, created.listCache, UpdateNoteItem("a"),
                             NoteItemView.SavePayload(NoteA, "# A2", "t1"), "unused");
      var deleted := Dispatch(edited.store, edited.listCache, DeleteNoteItem("a"), None, "unused");
      var reread := Dispatch(deleted.store, deleted.listCache, GetNoteItem("a"), None, "unused");
      created.listCache == Some([NoteA, NoteB]) && created.store == [NoteA, NoteB] &&
      edited.listCache == Some([NoteA2, NoteB]) && edited.store == [NoteA2, NoteB] &&
      deleted.listCache == Some([NoteB]) && deleted.store == [NoteB] &&
      reread.result == Failure(NotFound) && reread.listCache == Some([NoteB])
  {
    ScenarioCreate();
    ScenarioEdit();
    ScenarioDelete();
    ScenarioReread();
  }

  lemma ScenarioCreate()
    ensures var o := Dispatch([NoteA], Some([NoteA]), CreateNoteItem,
                              Some(NewNoteDialog.CreatePayload("B")), "b");
      o.store == [NoteA, NoteB] && o.listCache == Some([NoteA, NoteB])
  {
    assert "# " + "B" == "# B";
  }

  lemma ScenarioEdit()
    ensures var o := Dispatch([NoteA, NoteB], Some([NoteA, NoteB]), UpdateNoteItem("a"),
                              NoteItemView.SavePayload(NoteA, "# A2", "t1"), "unused");
      o.store == [NoteA2, NoteB] && o.listCache == Some([NoteA2, NoteB])
  {
    assert MatchRoute(NoteRoute("a")) == Some(NoteEndpoint("a"));
    assert FindIndex([NoteA, NoteB], Some("a")) == Some(0);
    assert ReplaceAt([NoteA, NoteB], 0, NoteA2) == [NoteA2, NoteB];
  }

  lemma ScenarioDelete()
    ensures var o := Dispatch([NoteA2, NoteB], Some([NoteA2, NoteB]), DeleteNoteItem("a"), None, "unused");
      o.store == [NoteB] && o.listCache == Some([NoteB])
  {
    assert MatchRoute(NoteRoute("a")) == Some(NoteEndpoint("a"));
    assert FindIndex([NoteA2, NoteB], Some("a")) == Some(0);
    assert Without([NoteA2, NoteB], Some("a")) == [NoteB] by {
      assert [NoteA2, NoteB][1..] == [NoteB];
      assert [NoteB][1..] == [];
    }
  }

  lemma ScenarioReread()
    ensures var o := Dispatch([NoteB], Some([NoteB]), GetNoteItem("a"), None, "unused");
      o.result == Failure(NotFound) && o.listCache == Some([NoteB]) && o.store == [NoteB]
  {
    assert MatchRoute(NoteRoute("a")) == Some(NoteEndpoint("a"));
    assert !HasId([NoteB], Some("a"));
  }

  /** Without the id agreement between route and body the list drifts from
      the server: a PUT to "/notes/a" whose body says "b" overwrites "a" on the
      server but replaces "b" in the cached list. */
  lemma MismatchedUpdateBreaksCoherence()
    ensures var o := Dispatch([NoteA, NoteB], Some([NoteA, NoteB]), UpdateNoteItem("a"),
                              Some(NoteB.(content := Some("# X"))), "unused");
      o.result.Success? && !Coherent(o.listCache, o.store)
  {
    var x := NoteB.(content := Some("# X"));
    var req := Request(UpdateNoteItem("a"), Some(x));
    assert MatchRoute(req.route) == Some(NoteEndpoint("a"));
    assert FindIndex([NoteA, NoteB], Some("a")) == Some(0);
    assert ReplaceAt([NoteA, NoteB], 0, x) == [x, NoteB];
    assert Handle([NoteA, NoteB], req, "unused") == ([x, NoteB], Success(NoteBody(x)));
    assert FindIndex([NoteA, NoteB], Some("b")) == Some(1);
    assert ReplaceAt([NoteA, NoteB], 1, x) == [NoteA, x];
    assert MergeNoteItem(Some([NoteA, NoteB]), x) == Some([NoteA, x]);
  }

  /** Without the tombstone-free store the list drifts too: reading back a
      stored note that carries the deleted flag removes it from the list. */
  lemma FlaggedStoredNoteBreaksCoherence()
    ensures
      var a := Note(Some("a"), None, None, true);
      var o := Dispatch([a], Some([a]), GetNoteItem("a"), None, "unused");
      o.result.Success? && o.listCache == Some([]) && o.store == [a]
  {
    var a := Note(Some("a"), None, None, true);
    assert MatchRoute(NoteRoute("a")) == Some(NoteEndpoint("a"));
    assert FindIndex([a], Some("a")) == Some(0);
    assert Without([a], Some("a")) == [] by {
      assert [a][1..] == [];
    }
  }
}

=== FILE: fetches.dfy ===
/** The five fetch factories of src/fetches/: for each fetch instance, the
    namespace its result is published under, the bind arguments that make up
    its identity, the request it hands to the transport, and how the
    transport's outcome becomes the fetch's result. */
module Fetches {
  import opened Wrappers
  import opened Notes
  import opened Http
  import opened MockApi

  /** `share.namespace` of the factories. */
  datatype Namespace = NoteListNs | NoteItemNs | NewNoteItemNs

  /** A fetch instance: a factory applied to its bind arguments. The list and
      create instances are module-level singletons built with no argument;
      the three single-note factories are bound to a note id. */
  datatype Fetch =
    | GetNoteList
    | CreateNoteItem
    | GetNoteItem(noteId: NoteId)
    | UpdateNoteItem(noteId: NoteId)
    | DeleteNoteItem(noteId: NoteId)

  function NamespaceOf(f: Fetch): Namespace {
    match f
    case GetNoteList => NoteListNs
    case CreateNoteItem => NewNoteItemNs
    case _ => NoteItemNs
  }

  function BindArgs(f: Fetch): seq<string> {
    if f.GetNoteList? || f.CreateNoteItem? then [] else [f.noteId]
  }

  /** The cache identity of an instance: its namespace and its bind arguments. */
  function Identity(f: Fetch): (Namespace, seq<string>) {
    (NamespaceOf(f), BindArgs(f))
  }

  /** `getNoteList`: GET `/notes`, no body. */
  function NoteListRequest(): (r: HttpRequest)
    ensures r.verb == Get && MatchRoute(r.route) == Some(NotesEndpoint) && r.data.None?
  {
    HttpRequest(Get, NotesRoute, None)
  }

  /** `createNoteItem(newNote)`: POST `/notes` with `newNote` as the body; the
      route does not depend on the note. */
  function CreateNoteRequest(newNote: Option<Note>): (r: HttpRequest)
    ensures r.verb == Post && MatchRoute(r.route) == Some(NotesEndpoint) && r.data == newNote
  {
    HttpRequest(Post, NotesRoute, newNote)
  }

  /** `makeGetNoteItem(noteId)()`: GET the note's route, no body. */
  function GetNoteRequest(noteId: NoteId): (r: HttpRequest)
    ensures r.verb == Get && r.route == NoteRoute(noteId) && r.data.None?
    ensures IsSegment(noteId) ==> MatchRoute(r.route) == Some(NoteEndpoint(noteId))
  {
    HttpRequest(Get, NoteRoute(noteId), None)
  }

  /** `makeUpdateNoteItem(noteId)(updatedNote)`: PUT the note's route with
      `updatedNote` as the body; the route id and the body's id are not
      compared. */
  function UpdateNoteRequest(noteId: NoteId, updatedNote: Option<Note>): (r: HttpRequest)
    ensures r.verb == Put && r.route == NoteRoute(noteId) && r.data == updatedNote
    ensures IsSegment(noteId) ==> MatchRoute(r.route) == Some(NoteEndpoint(noteId))
  {
    HttpRequest(Put, NoteRoute(noteId), updatedNote)
  }

  /** `makeDeleteNoteItem(noteId)(updatedNote)`: DELETE the note's route with
      no body; the call argument goes unused. */
  function DeleteNoteRequest(noteId: NoteId, updatedNote: Option<Note>): (r: HttpRequest)
    ensures r.verb == Delete && r.route == NoteRoute(noteId) && r.data.None?
    ensures IsSegment(noteId) ==> MatchRoute(r.route) == Some(NoteEndpoint(noteId))
  {
    HttpRequest(Delete, NoteRoute(noteId), None)
  }

  /** The request an instance issues when dispatched with call argument
      `callArg` (`None` when called with none). */
  /** The `method` string each factory writes into its request. */
  function MethodName(f: Fetch): string {
    match f
    case GetNoteList => "GET"
    case CreateNoteItem => "POST"
    case GetNoteItem(_) => "GET"
    case UpdateNoteItem(_) => "PUT"
    case DeleteNoteItem(_) => "DELETE"
  }

  /** The request an instance of `f` sends; its method is what the handlers'
      string comparisons make of the factory's method name. */
  function Request(f: Fetch, callArg: Option<Note>): (r: HttpRequest)
    ensures r.verb == ParseMethod(MethodName(f)) && !r.verb.OtherMethod?
  {
    match f
    case GetNoteList => NoteListRequest()
    case CreateNoteItem => CreateNoteRequest(callArg)
    case GetNoteItem(noteId) => GetNoteRequest(noteId)
    case UpdateNoteItem(noteId) => UpdateNoteRequest(noteId, callArg)
    case DeleteNoteItem(noteId) => DeleteNoteRequest(noteId, callArg)
  }

  /** The value an instance's request resolves with, given the transport's
      outcome: the response itself, except that a successful delete resolves
      with a tombstone for the bound id, whatever the server sent. A failure
      propagates unchanged. */
  function Settle(f: Fetch, response: Response): (r: Response)
    ensures response.Failure? ==> r == response
    ensures !f.DeleteNoteItem? ==> r == response
    ensures f.DeleteNoteItem? && response.Success? ==> r == Success(NoteBody(Tombstone(f.noteId)))
  {
    match response
    case Failure(_) => response
    case Success(_) =>
      if f.DeleteNoteItem? then Success(NoteBody(Tombstone(f.noteId))) else response
  }

  /** The delete instance ignores its call argument: the request and the
      tombstone depend only on the bound id. */
  lemma DeleteIgnoresCallArgument(noteId: NoteId, updatedNote: Option<Note>, response: Response)
    ensures Request(DeleteNoteItem(noteId), updatedNote) == Request(DeleteNoteItem(noteId), None)
    ensures response.Success? ==>
      Settle(DeleteNoteItem(noteId), response) == Settle(DeleteNoteItem(noteId), Success(Undefined))
  {
  }

  /** The list and create fetches are singletons without bind arguments, each
      in a namespace of its own: creates publish under `newNoteItem`, not
      under `noteItem`. */
  lemma SingletonIdentities(noteId: NoteId)
    ensures Identity(GetNoteList) == (NoteListNs, [])
    ensures Identity(CreateNoteItem) == (NewNoteItemNs, [])
    ensures NamespaceOf(CreateNoteItem) != NamespaceOf(UpdateNoteItem(noteId))
  {
  }

  /** Single-note instances share a cache identity exactly when they are
      bound to the same id, whichever of get, update or delete they are. */
  lemma NoteItemIdentities(a: NoteId, b: NoteId)
    ensures Identity(GetNoteItem(a)) == Identity(UpdateNoteItem(a)) == Identity(DeleteNoteItem(a))
      == (NoteItemNs, [a])
    ensures Identity(GetNoteItem(a)) == Identity(DeleteNoteItem(b)) <==> a == b
  {
  }
}

=== FILE: http.dfy ===
/** The request descriptor `{ method, route, data }` (the method is called
    `verb` here) that the fetch factories hand to the transport, the response
    bodies the mock server produces, and the route matching that decides which
    mock handler serves a request: the `notes` handler is mounted on the exact
    path `/notes` and the `note` handler on `/notes/:id` (src/mockApi.js:256-257,
    281-282). */
module Http {
  import opened Wrappers
  import opened Notes

  /** The request method. `OtherMethod` stands for a method name that is none
      of the four the handlers compare against; `ParseMethod` is how a name
      becomes a `Method`. */
  datatype Method = Get | Post | Put | Delete | OtherMethod(name: string)

  /** A method value as the handlers see it: an `OtherMethod` never carries one
      of the four names the handlers test for. */
  predicate Canonical(m: Method) {
    m.OtherMethod? ==> m.name !in {"GET", "POST", "PUT", "DELETE"}
  }

  /** The methods a request can carry: `OtherMethod("GET")` is not one of
      them, since `method === "GET"` would serve it as a GET. */
  type Verb = m: Method | Canonical(m) witness Get

  /** The handlers test `method === "GET"` and so on, case-sensitively. */
  function ParseMethod(name: string): (m: Verb)
    ensures m == Get <==> name == "GET"
    ensures m == Post <==> name == "POST"
    ensures m == Put <==> name == "PUT"
    ensures m == Delete <==> name == "DELETE"
    ensures m.OtherMethod? ==> m.name == name && name !in {"GET", "POST", "PUT", "DELETE"}
  {
    if name == "GET" then Get
    else if name == "POST" then Post
    else if name == "PUT" then Put
    else if name == "DELETE" then Delete
    else OtherMethod(name)
  }

  datatype HttpRequest = HttpRequest(verb: Verb, route: string, data: Option<Note>)

  /** What a handler resolves with: `undefined`, one note, or a list of notes. */
  datatype Body = Undefined | NoteBody(note: Note) | NoteListBody(notes: seq<Note>)

  /** `new Error("Not Found")` from a handler, or a request no handler serves. */
  datatype ApiError = NotFound | NoRoute

  /** Which handler serves a route, and the `:id` parameter it binds. */
  datatype Endpoint = NotesEndpoint | NoteEndpoint(id: NoteId)

  const NotesRoute: string := "/notes"
  const NotePrefix: string := "/notes/"

  /** The route of a single note: `` `/notes/${noteId}` ``. */
  function NoteRoute(noteId: NoteId): string {
    NotePrefix + noteId
  }

  /** An id that fills the `:id` path segment by itself: non-empty, no `/`. */
  predicate IsSegment(noteId: NoteId) {
    |noteId| > 0 && '/' !in noteId
  }

  /** Route matching: `/notes` exactly, or `/notes/` followed by one segment. */
  function MatchRoute(route: string): (r: Option<Endpoint>)
    ensures r == Some(NotesEndpoint) <==> route == NotesRoute
    ensures forall id :: r == Some(NoteEndpoint(id)) <==> IsSegment(id) && route == NoteRoute(id)
  {
    if route == NotesRoute then Some(NotesEndpoint)
    else if |route| > |NotePrefix| && route[..|NotePrefix|] == NotePrefix
         && '/' !in route[|NotePrefix|..]
    then
      assert route == NoteRoute(route[|NotePrefix|..]);
      Some(NoteEndpoint(route[|NotePrefix|..]))
    else
      assert forall id :: route == NoteRoute(id) ==> route[|NotePrefix|..] == id;
      None
  }
}

=== FILE: merge.dfy ===
/** The two merge rules the note-list fetch registers for related namespaces
    (src/fetches/getNoteList.js): how the cached list reacts when a single note
    arrives under `noteItem` (get, update, delete) or under `newNoteItem`
    (create). A cached list that has never been fetched is `None`; an empty
    list is `Some([])` and is a real list. */
module NoteListMerge {
  import opened Wrappers
  import opened Notes

  /** The `noteItem` rule: replace the first note with the incoming id, or drop
      every note with that id when the incoming note is a tombstone; a list
      without the id is returned as it was. */
  function MergeNoteItem(prev: Option<seq<Note>>, next: Note): (r: Option<seq<Note>>)
    ensures prev.None? <==> r.None?
    ensures prev.Some? && !HasId(prev.value, next.id) ==> r == prev
    ensures prev.Some? && HasId(prev.value, next.id) && next.deleted ==>
      !HasId(r.value, next.id) &&
      (forall n :: n in r.value <==> n in prev.value && n.id != next.id) &&
      |r.value| < |prev.value|
    ensures prev.Some? && HasId(prev.value, next.id) && !next.deleted ==>
      |r.value| == |prev.value| &&
      exists i :: 0 <= i < |prev.value| && prev.value[i].id == next.id &&
        (forall j :: 0 <= j < i ==> prev.value[j].id != next.id) &&
        r.value[i] == next &&
        (forall j :: 0 <= j < |prev.value| && j != i ==> r.value[j] == prev.value[j])
  {
    match prev
    case None => None
    case Some(notes) =>
      match FindIndex(notes, next.id)
      case None => prev
      case Some(i) =>
        if next.deleted then Some(Without(notes, next.id))
        else Some(ReplaceAt(notes, i, next))
  }

  /** The `newNoteItem` rule: append the created note, with no duplicate check. */
  function MergeNewNoteItem(prev: Option<seq<Note>>, next: Note): (r: Option<seq<Note>>)
    ensures prev.None? <==> r.None?
    ensures prev.Some? ==>
      |r.value| == |prev.value| + 1 &&
      r.value[..|prev.value|] == prev.value &&
      r.value[|prev.value|] == next
    ensures prev == Some([]) ==> r == Some([next])
  {
    match prev
    case None => None
    case Some(notes) => Some(notes + [next])
  }

  /** The `noteItem` rule applied twice with the same note is applied once. */
  lemma MergeNoteItemIdempotent(prev: Option<seq<Note>>, next: Note)
    ensures MergeNoteItem(MergeNoteItem(prev, next), next) == MergeNoteItem(prev, next)
  {
    match prev
    case None =>
    case Some(notes) =>
      match FindIndex(notes, next.id)
      case None =>
      case Some(i) =>
        if next.deleted {
          assert !HasId(Without(notes, next.id), next.id);
        } else {
          var once := ReplaceAt(notes, i, next);
          ReplaceAtFirstIndex(notes, i, next);
          assert MergeNoteItem(Some(once), next) == Some(ReplaceAt(once, i, next));
          assert ReplaceAt(once, i, next) == once;
        }
  }

  /** A tombstone keeps the surviving notes in their original relative order:
      removing from a concatenation removes from each part. */
  lemma MergeTombstoneKeepsOrder(front: seq<Note>, back: seq<Note>, next: Note)
    requires next.deleted
    requires HasId(front + back, next.id)
    ensures MergeNoteItem(Some(front + back), next) ==
      Some(Without(front, next.id) + Without(back, next.id))
  {
    WithoutConcat(front, back, next.id);
  }
}

=== FILE: mock_api.dfy ===
/** The in-memory mock server (src/mockApi.js:256-312) as a pure transition
    from a store and a request to the next store and a response. The id
    generator `shortId()` is the parameter `freshId`; the artificial latency is
    left out. */
module MockApi {
  import opened Wrappers
  import opened Notes
  import opened Http

  type Response = Result<Body, ApiError>

  /** The `notes` handler on `/notes`: GET lists, POST appends with a new id,
      any other method resolves with `undefined`. */
  function HandleNotes(store: seq<Note>, verb: Method, data: Option<Note>, freshId: NoteId)
    : (r: (seq<Note>, Response))
    ensures verb == Get ==> r == (store, Success(NoteListBody(store)))
    ensures verb == Post ==>
      |r.0| == |store| + 1 && r.0[..|store|] == store &&
      var created := r.0[|store|];
      created.id == Some(freshId) &&
      created.content == data.GetOr(Blank).content &&
      created.updatedAt == data.GetOr(Blank).updatedAt &&
      created.deleted == data.GetOr(Blank).deleted &&
      r.1 == Success(NoteBody(created))
    ensures verb != Get && verb != Post ==> r == (store, Success(Undefined))
  {
    match verb
    case Get => (store, Success(NoteListBody(store)))
    case Post =>
      var created := WithId(data.GetOr(Blank), freshId);
      (store + [created], Success(NoteBody(created)))
    case _ => (store, Success(Undefined))
  }

  /** The `note` handler on `/notes/:id`: GET, PUT and DELETE each fail with
      "Not Found" when no stored note has the id; any other method resolves
      with `undefined`. A PUT that finds its note needs a body, because the
      body is what gets stored. */
  function HandleNote(store: seq<Note>, verb: Method, id: NoteId, data: Option<Note>)
    : (r: (seq<Note>, Response))
    requires verb == Put && HasId(store, Some(id)) ==> data.Some?
    ensures verb in {Get, Put, Delete} && !HasId(store, Some(id)) ==>
      r == (store, Failure(NotFound))
    ensures verb == Get && HasId(store, Some(id)) ==>
      r.0 == store && r.1.Success? && r.1.value.NoteBody? &&
      Find(store, Some(id)) == Some(r.1.value.note)
    ensures verb == Put && HasId(store, Some(id)) ==>
      var i := FindIndex(store, Some(id)).value;
      |r.0| == |store| && r.0[i] == data.value &&
      (forall j :: 0 <= j < |store| && j != i ==> r.0[j] == store[j]) &&
      r.1 == Success(NoteBody(data.value))
    ensures verb == Delete && HasId(store, Some(id)) ==>
      r.0 == Without(store, Some(id)) && !HasId(r.0, Some(id)) &&
      |r.0| < |store| && r.1 == Success(Undefined)
    ensures verb !in {Get, Put, Delete} ==> r == (store, Success(Undefined))
  {
    match verb
    case Get =>
      (match Find(store, Some(id))
       case None => (store, Failure(NotFound))
       case Some(note) => (store, Success(NoteBody(note))))
    case Put =>
      (match FindIndex(store, Some(id))
       case None => (store, Failure(NotFound))
       case Some(i) => (ReplaceAt(store, i, data.value), Success(NoteBody(data.value))))
    case Delete =>
      if !HasId(store, Some(id)) then (store, Failure(NotFound))
      else (Without(store, Some(id)), Success(Undefined))
    case _ => (store, Success(Undefined))
  }

  /** What the route handlers require of a request they will serve. */
  predicate Serviceable(store: seq<Note>, req: HttpRequest) {
    match MatchRoute(req.route)
    case Some(NoteEndpoint(id)) => req.verb == Put && HasId(store, Some(id)) ==> req.data.Some?
    case _ => true
  }

  /** One request against the mock server: routed to its handler, or failed
      when no handler is mounted on the route. */
  function Handle(store: seq<Note>, req: HttpRequest, freshId: NoteId): (r: (seq<Note>, Response))
    requires Serviceable(store, req)
    ensures MatchRoute(req.route).None? ==> r == (store, Failure(NoRoute))
    ensures MatchRoute(req.route) == Some(NotesEndpoint) ==>
      r == HandleNotes(store, req.verb, req.data, freshId)
    ensures MatchRoute(req.route).Some? && MatchRoute(req.route).value.NoteEndpoint? ==>
      r == HandleNote(store, req.verb, MatchRoute(req.route).value.id, req.data)
    ensures r.1.Failure? ==> r.0 == store
    ensures req.verb !in {Post, Put, Delete} ==> r.0 == store
  {
    match MatchRoute(req.route)
    case None => (store, Failure(NoRoute))
    case Some(NotesEndpoint) => HandleNotes(store, req.verb, req.data, freshId)
    case Some(NoteEndpoint(id)) => HandleNote(store, req.verb, id, req.data)
  }

  /** A PUT whose body keeps the route id is read back by the next GET of that
      id: the replaced position is still the first one carrying the id. */
  lemma UpdateThenGet(store: seq<Note>, id: NoteId, body: Note)
    requires HasId(store, Some(id))
    requires body.id == Some(id)
    ensures var (updated, _) := HandleNote(store, Put, id, Some(body));
      HandleNote(updated, Get, id, None) == (updated, Success(NoteBody(body)))
  {
    var i := FindIndex(store, Some(id)).value;
    ReplaceAtFirstIndex(store, i, body);
  }
}

=== FILE: new_note_dialog.dfy ===
/** The data logic of the NewNoteDialog component (src/NewNoteDialog.js): the
    typed name, its reset when the dialog closes, the Create button's enable
    condition and the payload `handleCreate` sends. */
module NewNoteDialog {
  import opened Wrappers
  import opened Notes
  import opened Http
  import opened Fetches
  import opened NoteListView

  /** The component state that matters: whether the dialog is open and the
      name typed so far. */
  datatype Dialog = Dialog(open: bool, name: string)

  /** What can happen to the dialog: its `open` prop changes, or the user
      types into the name field. */
  datatype Event = OpenChanged(open: bool) | Typed(value: string)

  /** The invariant the reset effect keeps: a closed dialog holds no name. */
  predicate ClosedIsBlank(d: Dialog) {
    !d.open ==> d.name == ""
  }

  /** The dialog as first mounted: `useState("")`, then the effect for `open`. */
  function Mount(open: bool): (d: Dialog)
    ensures d.name == "" && d.open == open
  {
    Dialog(open, "")
  }

  /** One event followed by the effect on `[open]`. The name field only
      exists, and so only changes, while the dialog is open. */
  function Step(d: Dialog, e: Event): (r: Dialog)
    ensures ClosedIsBlank(d) ==> ClosedIsBlank(r)
    ensures e.OpenChanged? && !e.open ==> r == Dialog(false, "")
    ensures e.OpenChanged? && e.open ==> r.name == d.name
    ensures e.Typed? && d.open ==> r.name == e.value
    ensures e.Typed? && !d.open ==> r == d
    ensures r.open == (if e.OpenChanged? then e.open else d.open)
  {
    match e
    case OpenChanged(open) => if open then d.(open := true) else Dialog(false, "")
    case Typed(value) => if d.open then d.(name := value) else d
  }

  /** Every state reached from a mount by any sequence of events keeps the
      closed-dialog name blank. */
  lemma {:induction false} RunKeepsClosedBlank(d: Dialog, events: seq<Event>)
    requires ClosedIsBlank(d)
    ensures ClosedIsBlank(Run(d, events))
    decreases |events|
  {
    if |events| > 0 {
      RunKeepsClosedBlank(Step(d, events[0]), events[1..]);
    }
  }

  function Run(d: Dialog, events: seq<Event>): Dialog
    decreases |events|
  {
    if |events| == 0 then d else Run(Step(d, events[0]), events[1..])
  }

  /** Whatever happened since the mount, a dialog that is opened from the
      closed state shows an empty name: the reset on close is what makes a
      reopened dialog blank. */
  lemma ReopenedDialogIsBlank(open: bool, events: seq<Event>)
    ensures var d := Run(Mount(open), events);
      !d.open ==> Step(d, OpenChanged(true)) == Dialog(true, "")
  {
    RunKeepsClosedBlank(Mount(open), events);
  }

  /** The Create button: disabled while the create fetch is loading or while
      the name is empty; `loading` is `isLoading(status)` of that fetch. */
  function CreateEnabled(d: Dialog, loading: bool): (b: bool)
    ensures b ==> d.name != "" && !loading
    ensures !b ==> d.name == "" || loading
  {
    !(loading || d.name == "")
  }

  /** A closed dialog can never create: its name is blank. */
  lemma ClosedDialogCannotCreate(d: Dialog, loading: bool)
    requires ClosedIsBlank(d) && !d.open
    ensures !CreateEnabled(d, loading)
  {
  }

  /** `{ content: "# " + name }`: no id, no timestamp, no tombstone flag. */
  function CreatePayload(name: string): (n: Note)
    ensures n.id.None? && n.updatedAt.None? && !n.deleted
    ensures n.content.Some? && |n.content.value| == |name| + 2 && n.content.value[..2] == "# " && n.content.value[2..] == name
  {
    Note(None, Some("# " + name), None, false)
  }

  /** The request `handleCreate` issues through the shared create fetch. */
  function CreateRequest(d: Dialog): (r: HttpRequest)
    ensures r.verb == Post && MatchRoute(r.route) == Some(NotesEndpoint)
    ensures r.data == Some(CreatePayload(d.name))
  {
    Request(CreateNoteItem, Some(CreatePayload(d.name)))
  }

  /** A note created from the dialog is never listed as "Untitled Note": its
      title starts with the `#` of the heading. */
  lemma CreatedNoteHasTitle(name: string)
    ensures var title := GetTitle(CreatePayload(name).content);
      title != [] && title[0] == '#' && DisplayTitle(CreatePayload(name).content) == title
  {
    var s := "# " + name;
    assert !IsWhitespace(s[0]);
    assert !AllWhitespace(s);
    var t := Trim(s);
    var k :| 0 <= k <= |s| - |t| && t == s[k..k + |t|] &&
      AllWhitespace(s[..k]) && AllWhitespace(s[k + |t|..]);
    if k > 0 {
      assert s[..k][0] == s[0];
    }
    assert t[0] == '#';
  }
}

=== FILE: note_item_view.dfy ===
/** The data logic of the NoteItem component (src/NoteItem.js): the three
    single-note fetches bound to the component's `id` prop, and the update
    payload `handleSave` builds from the note on screen. */
module NoteItemView {
  import opened Wrappers
  import opened Notes
  import opened Http
  import opened MockApi
  import opened Fetches

  /** `makeGetNoteItem(id)`, `makeUpdateNoteItem(id)`, `makeDeleteNoteItem(id)`. */
  function ItemFetches(id: NoteId): (r: (Fetch, Fetch, Fetch))
    ensures r.0.GetNoteItem? && r.1.UpdateNoteItem? && r.2.DeleteNoteItem?
    ensures Identity(r.0) == (NoteItemNs, [id])
    ensures Identity(r.1) == Identity(r.0) && Identity(r.2) == Identity(r.0)
  {
    (GetNoteItem(id), UpdateNoteItem(id), DeleteNoteItem(id))
  }

  /** The payload of `handleSave(content)` given the note on screen `data`:
      nothing when the content did not change, otherwise `{ ...data, content,
      updatedAt: now }`, so every other field of `data`, its id included, is
      carried over. The clock reading `now` is a parameter. */
  function SavePayload(data: Note, content: string, now: string): (r: Option<Note>)
    ensures r.None? <==> data.content == Some(content)
    ensures r.Some? ==>
      r.value.id == data.id && r.value.deleted == data.deleted &&
      r.value.content == Some(content) && r.value.updatedAt == Some(now)
  {
    if data.content == Some(content) then None
    else Some(data.(content := Some(content), updatedAt := Some(now)))
  }

  /** The request `handleSave` issues through the update fetch bound to `id`. */
  function SaveRequest(id: NoteId, data: Note, content: string, now: string): (r: Option<HttpRequest>)
    ensures r.None? <==> data.content == Some(content)
    ensures r.Some? ==>
      r.value.verb == Put && r.value.route == NoteRoute(id) &&
      r.value.data == SavePayload(data, content, now) &&
      r.value.data.value.id == data.id
  {
    match SavePayload(data, content, now)
    case None => None
    case Some(payload) => Some(Request(ItemFetches(id).1, Some(payload)))
  }

  /** Saving the note the get fetch showed for `id` is read back by the next
      get: the server then holds the new content under the same id. */
  lemma SaveThenReload(store: seq<Note>, id: NoteId, data: Note, content: string, now: string)
    requires IsSegment(id)
    requires Find(store, Some(id)) == Some(data)
    requires data.content != Some(content)
    ensures var saved := Handle(store, SaveRequest(id, data, content, now).value, id);
      var reloaded := Handle(saved.0, Request(ItemFetches(id).0, None), id);
      saved.1.Success? && reloaded.0 == saved.0 &&
      reloaded.1.Success? && reloaded.1.value.NoteBody? &&
      reloaded.1.value.note.id == Some(id) &&
      reloaded.1.value.note.content == Some(content) &&
      reloaded.1.value.note.updatedAt == Some(now)
  {
    var payload := SavePayload(data, content, now).value;
    assert MatchRoute(NoteRoute(id)) == Some(NoteEndpoint(id));
    UpdateThenGet(store, id, payload);
  }
}

=== FILE: note_list_view.dfy ===
/** The list entry title of src/NoteList.js: `getTitle` (the first line of the
    trimmed content) and the "Untitled Note" fallback used when it is empty. */
module NoteListView {
  import opened Wrappers

  /** The characters `String.prototype.trim` removes: ECMAScript WhiteSpace
      (tab, vertical tab, form feed, space, no-break space, byte-order mark and
      the other space separators) and LineTerminator (line feed, carriage
      return, line and paragraph separators). */
  const Whitespace: set<char> :=
    {'\t', '\n', '\U{000B}', '\U{000C}', '\r', ' ', '\U{00A0}', '\U{1680}',
          '\U{2000}', '\U{2001}', '\U{2002}', '\U{2003}', '\U{2004}', '\U{2005}',
          '\U{2006}', '\U{2007}', '\U{2008}', '\U{2009}', '\U{200A}',
          '\U{2028}', '\U{2029}', '\U{202F}', '\U{205F}', '\U{3000}', '\U{FEFF}'}

  predicate IsWhitespace(c: char) {
    c in Whitespace
  }

  predicate AllWhitespace(s: string) {
    forall i :: 0 <= i < |s| ==> IsWhitespace(s[i])
  }

  /** The index of the first non-whitespace character of `s` at or after
      `i`, or `|s|` when there is none. */
  function SkipLeading(s: string, i: nat): (r: nat)
    requires i <= |s|
    ensures i <= r <= |s|
    ensures forall j :: i <= j < r ==> IsWhitespace(s[j])
    ensures r < |s| ==> !IsWhitespace(s[r])
    decreases |s| - i
  {
    if i < |s| && IsWhitespace(s[i]) then SkipLeading(s, i + 1) else i
  }

  /** The end of `s[lo..e]` once its trailing whitespace is dropped. */
  function SkipTrailing(s: string, lo: nat, e: nat): (r: nat)
    requires lo <= e <= |s|
    ensures lo <= r <= e
    ensures forall j :: r <= j < e ==> IsWhitespace(s[j])
    ensures r > lo ==> !IsWhitespace(s[r - 1])
    decreases e
  {
    if e > lo && IsWhitespace(s[e - 1]) then SkipTrailing(s, lo, e - 1) else e
  }

  /** `s.trim()`: a contiguous piece of `s` whose removed ends are all
      whitespace and whose own ends are not. */
  function Trim(s: string): (r: string)
    ensures exists k :: (0 <= k <= |s| - |r| && r == s[k..k + |r|] &&
      AllWhitespace(s[..k]) && AllWhitespace(s[k + |r|..]))
    ensures r == [] || (!IsWhitespace(r[0]) && !IsWhitespace(r[|r| - 1]))
    ensures r == [] <==> AllWhitespace(s)
  {
    var start := SkipLeading(s, 0);
    var end := SkipTrailing(s, start, |s|);
    TrimPiece(s, start, end);
    TrimEnds(s, start, end);
    s[start..end]
  }

  /** `s[start..end]` is a piece of `s` cut out of whitespace on both sides,
      given where the leading and trailing whitespace stop. */
  lemma TrimPiece(s: string, start: nat, end: nat)
    requires start <= end <= |s|
    requires forall j :: 0 <= j < start ==> IsWhitespace(s[j])
    requires start < |s| ==> !IsWhitespace(s[start])
    requires forall j :: end <= j < |s| ==> IsWhitespace(s[j])
    requires end > start ==> !IsWhitespace(s[end - 1])
    ensures var r := s[start..end];
      exists k :: (0 <= k <= |s| - |r| && r == s[k..k + |r|] &&
        AllWhitespace(s[..k]) && AllWhitespace(s[k + |r|..]))
  {
    assert AllWhitespace(s[..start]) by {
      forall j | 0 <= j < start
        ensures IsWhitespace(s[..start][j])
      {
        assert s[..start][j] == s[j];
      }
    }
    assert AllWhitespace(s[end..]) by {
      forall j | 0 <= j < |s| - end
        ensures IsWhitespace(s[end..][j])
      {
        assert s[end..][j] == s[end + j];
      }
    }
    assert start + |s[start..end]| == end;
  }

  /** The trimmed piece is empty exactly when `s` is all whitespace, and
      otherwise starts and ends with non-whitespace. */
  lemma TrimEnds(s: string, start: nat, end: nat)
    requires start <= end <= |s|
    requires forall j :: 0 <= j < start ==> IsWhitespace(s[j])
    requires start < |s| ==> !IsWhitespace(s[start])
    requires forall j :: end <= j < |s| ==> IsWhitespace(s[j])
    requires end > start ==> !IsWhitespace(s[end - 1])
    ensures var r := s[start..end];
      r == [] || (!IsWhitespace(r[0]) && !IsWhitespace(r[|r| - 1]))
    ensures start == end <==> AllWhitespace(s)
  {
    if start != end {
      assert s[start..end][0] == s[start];
    }
  }

  /** `s.split("\n")[0]`: everything before the first line feed. */
  function FirstLine(s: string): (r: string)
    ensures |r| <= |s| && r == s[..|r|]
    ensures '\n' !in r
    ensures |r| < |s| ==> s[|r|] == '\n'
    ensures '\n' !in s ==> r == s
  {
    if |s| == 0 || s[0] == '\n' then []
    else
      var rest := FirstLine(s[1..]);
      assert s == [s[0]] + s[1..];
      [s[0]] + rest
  }

  /** `getTitle(content)`: `(content || "").trim().split("\n")[0]`. */
  function GetTitle(content: Option<string>): (t: string)
    ensures '\n' !in t
    ensures |t| <= |Trim(content.GetOr(""))| && t == Trim(content.GetOr(""))[..|t|]
    ensures |t| < |Trim(content.GetOr(""))| ==> Trim(content.GetOr(""))[|t|] == '\n'
    ensures '\n' !in Trim(content.GetOr("")) ==> t == Trim(content.GetOr(""))
    ensures t != [] ==> !IsWhitespace(t[0])
    ensures t == [] <==> content.None? || AllWhitespace(content.value)
  {
    var trimmed := Trim(content.GetOr(""));
    var t := FirstLine(trimmed);
    assert trimmed != [] ==> trimmed[0] != '\n';
    t
  }

  const Untitled: string := "Untitled Note"

  /** The primary text of a list entry: the title, or "Untitled Note" when the
      title is empty. */
  function DisplayTitle(content: Option<string>): (r: string)
    ensures r != []
    ensures GetTitle(content) == [] ==> r == Untitled
    ensures GetTitle(content) != [] ==> r == GetTitle(content)
    ensures (content.None? || AllWhitespace(content.value)) ==> r == Untitled
  {
    var t := GetTitle(content);
    if t == [] then Untitled else t
  }
}

=== FILE: notes.dfy ===
/** The `Note` entity and the sequence operations the rest of the model shares:
    `Array.prototype.findIndex`/`find` by id, `filter` by id and the
    slice-and-splice replacement of one position. */
module Notes {
  import opened Wrappers

  type NoteId = string

  /** A note as it travels over the wire and sits in a cache: every field may be
      missing (`undefined`), and `deleted` is the truthiness of the tombstone
      flag that the client synthesises after a delete. */
  datatype Note = Note(
    id: Option<NoteId>,
    content: Option<string>,
    updatedAt: Option<string>,
    deleted: bool)

  /** The empty object `{}`. */
  const Blank: Note := Note(None, None, None, false)

  /** The client-side stand-in for a deleted note: `{ id, deleted: true }`,
      with no content and no timestamp. */
  function Tombstone(id: NoteId): Note {
    Note(Some(id), None, None, true)
  }

  /** `{ ...note, id }`: every field kept, the id overwritten. */
  function WithId(note: Note, id: NoteId): Note {
    note.(id := Some(id))
  }

  /** Some note of `notes` carries exactly the id `id` (JavaScript `===`). */
  predicate HasId(notes: seq<Note>, id: Option<NoteId>) {
    exists i :: 0 <= i < |notes| && notes[i].id == id
  }

  /** No stored note carries the tombstone flag. */
  predicate NoTombstones(notes: seq<Note>) {
    forall i :: 0 <= i < |notes| ==> !notes[i].deleted
  }

  /** `notes.findIndex(note => note.id === id)`, with `-1` as `None`. */
  function FindIndex(notes: seq<Note>, id: Option<NoteId>): (r: Option<nat>)
    ensures r.None? <==> !HasId(notes, id)
    ensures r.Some? ==> r.value < |notes| && notes[r.value].id == id
    ensures r.Some? ==> forall j :: 0 <= j < r.value ==> notes[j].id != id
  {
    if |notes| == 0 then None
    else if notes[0].id == id then Some(0)
    else
      match FindIndex(notes[1..], id)
      case None =>
        assert forall i :: 1 <= i < |notes| ==> notes[i] == notes[1..][i - 1];
        None
      case Some(k) => Some(k + 1)
  }

  /** `notes.find(note => note.id === id)`: the first note with that id. */
  function Find(notes: seq<Note>, id: Option<NoteId>): (r: Option<Note>)
    ensures r.None? <==> !HasId(notes, id)
    ensures r.Some? ==> r.value.id == id && r.value in notes
    ensures r.Some? ==> r.value == notes[FindIndex(notes, id).value]
  {
    match FindIndex(notes, id)
    case None => None
    case Some(i) => Some(notes[i])
  }

  /** `notes.filter(note => note.id !== id)`. */
  function Without(notes: seq<Note>, id: Option<NoteId>): (r: seq<Note>)
    ensures |r| <= |notes|
    ensures !HasId(r, id)
    ensures forall n :: n in r <==> n in notes && n.id != id
    ensures !HasId(notes, id) ==> r == notes
    ensures HasId(notes, id) ==> |r| < |notes|
  {
    if |notes| == 0 then []
    else
      var rest := Without(notes[1..], id);
      assert forall n :: n in notes <==> n == notes[0] || n in notes[1..];
      assert HasId(notes, id) ==> notes[0].id == id || HasId(notes[1..], id) by {
        if HasId(notes, id) && notes[0].id != id {
          var i :| 0 <= i < |notes| && notes[i].id == id;
          assert notes[1..][i - 1].id == id;
        }
      }
      if notes[0].id == id then rest else [notes[0]] + rest
  }

  /** `[...notes.slice(0, i), note, ...notes.slice(i + 1)]`. */
  function ReplaceAt(notes: seq<Note>, i: nat, note: Note): (r: seq<Note>)
    requires i < |notes|
    ensures |r| == |notes|
    ensures r[i] == note
    ensures forall j :: 0 <= j < |notes| && j != i ==> r[j] == notes[j]
  {
    notes[..i] + [note] + notes[i + 1..]
  }

  /** `filter` keeps the survivors in their original order: filtering a
      concatenation filters each part and concatenates the results. */
  lemma {:induction false} WithoutConcat(a: seq<Note>, b: seq<Note>, id: Option<NoteId>)
    ensures Without(a + b, id) == Without(a, id) + Without(b, id)
  {
    if |a| == 0 {
      assert a + b == b;
    } else {
      assert (a + b)[1..] == a[1..] + b;
      WithoutConcat(a[1..], b, id);
    }
  }

  /** Replacing the first note carrying an id with a note of the same id keeps
      that position the first one carrying it. */
  lemma ReplaceAtFirstIndex(notes: seq<Note>, i: nat, next: Note)
    requires FindIndex(notes, next.id) == Some(i)
    ensures FindIndex(ReplaceAt(notes, i, next), next.id) == Some(i)
  {
    var once := ReplaceAt(notes, i, next);
    assert once[i].id == next.id;
    assert HasId(once, next.id);
    assert forall j :: 0 <= j < i ==> once[j] == notes[j];
  }
}

=== FILE: wrappers.dfy ===
/** Two plain sum types used throughout the model: `Option` stands for a
    JavaScript value that may be `null`/`undefined`, `Result` for a promise that
    either resolves with a value or rejects with an error. */
module Wrappers {

  datatype Option<+T> = None | Some(value: T) {

    /** The wrapped value, or `default` when absent (JavaScript's `x || default`
        for values that are never falsy when present). */
    function GetOr(default: T): T {
      if Some? then value else default
    }
  }

  datatype Result<+R, +E> = Success(value: R) | Failure(error: E)
}
